=== FILE: README.md ===
# wsmon — a Dafny model of the website monitor's core

wsmon probes a list of websites over HTTP. For each site it records the status code, the
request and response times, their difference, and the result of an optional regular-expression
check of the page. Each observation goes to a sink: a PostgreSQL table or an in-memory list
saved as YAML. One monitor loop runs per site. A failing probe is written as an error record
(status 444, regex outcome `ERROR`). The loop stops once the site has used up its retry
budget, `WSData.max_retry`. That budget counts every failure in the loop's lifetime, because
the counter is never reset after a success.

The model has these parts:

- `wrappers.dfy` (`Wrappers`): `Option` and `Result`.
- `py_text.dfy` (`PyText`): Python's `str()` of an integer and `repr()` of a string, the two
  conversions behind `WSData.__str__`. Each has a parser that inverts it, with a round-trip proof.
- `sites.dfy` (`Sites`): the site descriptor `WSData`. It covers the interval check in the
  constructor, the constructor defaults and the `url=… check_interval=… pattern=…` summary.
  The summary is proved to keep the interval and the pattern recoverable.
- `observations.dfy` (`Observations`): the record every sink receives, and the error record.
- `sink.dfy` (`Sink`): the file sink `YAMLFile` as a class whose `results` sequence `Insert` appends to.
- `probe.dfy` (`Probe`): the content-check classification and the record `monitor_website`
  builds from one HTTP exchange. A pattern that does not compile raises, and that counts as a
  failed probe.
- `monitor.dfy` (`Monitor`): the `wrapper` retry loop. It is a method driven by the finite
  sequence of probe attempts, proved against the specification function `Run`. Lemmas about
  `Run` show how the budget is spent and what gets recorded.

Three points where the model keeps the program's own behaviour:

- The outcome for "no pattern" is the string `not used`.
- Every exception derived from `Exception` that is raised inside a probe is caught by the loop and turned into an error record.
  That includes an uncompilable pattern. Cancellation and `KeyboardInterrupt` are not caught and leave no error record.
- A negative budget means the loop never stops.

## Model

| member | source | states |
|---|---|---|
| `PyText.StrRoundTrip` | wsmon.py:53-55 | the decimal text `%s` gives for the interval reads back as the same integer |
| `PyText.ReprOptionRoundTrip` | wsmon.py:53-55 | `%r` of the pattern (`None` or a quoted, escaped string) reads back as the same optional string |
| `PyText.ReprVerbatim` | wsmon.py:53-55 | a pattern of printable ASCII characters without quotes or backslashes is rendered between single quotes, unchanged |
| `Sites.NewSite` | wsmon.py:33-51 | construction succeeds iff 5 <= check_interval <= 300; on success url, interval and pattern are stored unchanged; otherwise it fails with the assertion error |
| `Sites.NewSiteWithDefaults` | wsmon.py:33-51 | `WSData(url)` always succeeds, with interval 5 and no pattern |
| `Sites.IntervalMessageAsWritten` | wsmon.py:44-47 | the assertion message as written is `interval set to `, the rejected interval, ` but should be in range of `, and ends with the literal ` {interval_min} and {interval_max} seconds)` |
| `Sites.IntervalMessageAsWrittenLeavesPlaceholders` | wsmon.py:44-47 | the assertion message as written always contains an unfilled `{…}` placeholder |
| `Sites.IntervalMessageFilled` | wsmon.py:44-47 | the corrected message has no `{…}` placeholder left |
| `Sites.IntervalMessageNamesBounds` | wsmon.py:44-47 | the corrected message shows the rejected interval and ends with `5 and 300 seconds` |
| `Sites.Summary` | wsmon.py:53-55 | `str(site)` starts with `url=<url> check_interval=` and the rest reads back as the site's interval and pattern |
| `Sites.SummaryRoundTrip` | wsmon.py:53-55 | given the url, the summary parses back to the site's interval and pattern |
| `Sites.SummaryDeterminesSite` | wsmon.py:53-55 | two sites with the same url and the same summary are equal |
| `Sites.SummaryOfTestSite` | test_wsmon.py:28-32 | the summary of the test site is `url=http://testsite.io check_interval=111 pattern='(.*) example'` |
| `Probe.RegexCheck` | wsmon.py:158-167 | `not used` iff the pattern is falsy; `<pattern> found` on a match; `no match found` iff there is no match or the pattern is literally `no match`; raises iff the pattern does not compile; never the initial `not unused` and never `ERROR` |
| `Probe.FoundForTestPattern` | wsmon.py:159-163 | pattern `(.*) example` against a matching body gives `(.*) example found` |
| `Probe.MonitorWebsite` | wsmon.py:151-170 | a successful probe records the site's url, the response status, both times, the time difference and the regex outcome; it raises exactly when the regex check raises |
| `Probe.Fails` | wsmon.py:184-186 | an attempt fails iff the request raised, or a pattern is set and the search itself raised (an uncompilable pattern) |
| `Probe.Observe` | wsmon.py:184-189 | each attempt yields one record for the site's url; a failed attempt yields the error record; the outcome is `ERROR` iff the attempt failed |
| `Observations.ErrorRecord` | wsmon.py:188-189 | the failure record has status 444, time difference 0 and outcome `ERROR`, with the two clock readings |
| `Sink.Key` | wsmon.py:126 | the entry key is the request time's text, one space, then the url |
| `Sink.Entry` | wsmon.py:125-130 | each entry is a single-key mapping from the key to all six fields |
| `Sink.YamlFile.constructor` | wsmon.py:109-117 | stores the connection info and table name; results start empty |
| `Sink.YamlFile.CreateTable` | wsmon.py:119-120 | changes nothing |
| `Sink.YamlFile.Insert` | wsmon.py:122-130 | results grow by exactly one entry, appended at the end; earlier entries are unchanged |
| `Monitor.Step` | wsmon.py:183-193 | a success leaves the counter unchanged and never stops; a failure stops iff the counter equals the budget, and otherwise increments it by one |
| `Monitor.Run` | wsmon.py:182-194 | one record per cycle; a run that does not stop consumes every attempt |
| `Monitor.ProbeOnce` | wsmon.py:184-189 | one probe appends exactly one entry to the sink: the attempt's observation, or the error record when the attempt fails; it reports whether the attempt failed |
| `Monitor.Wrapper` | wsmon.py:177-194 | the loop appends exactly `Run`'s records to the sink, in order, and ends with `Run`'s counter, stop flag and cycle count |
| `Monitor.RunWritesObservations` | wsmon.py:183-193 | the records written are the observations of the consumed attempts, in order |
| `Monitor.RunSpendsBudget` | wsmon.py:182-193 | for a counter within the budget: the loop stops iff the attempts hold more failures than the budget allows; it stops on the failure that exhausts the budget; the counter equals the failures that did not stop it and stays within [start, budget] |
| `Monitor.UnreachableBudgetNeverStops` | wsmon.py:190-193 | with a budget below the counter (a negative `max_retry`), the loop never stops and the counter counts every failure |
| `Monitor.AllFailuresStopAfterBudget` | wsmon.py:182-193 | when every probe fails, a budget k >= 0 writes exactly k + 1 error records (url, 444, 0, `ERROR`), then stops with the counter at k |
| `Monitor.DefaultBudgetWritesThreeErrors` | wsmon.py:31 | with the default budget 2 and every probe failing, exactly three records are written and no fourth cycle runs |
| `Monitor.StopIsFinal` | wsmon.py:190-192 | once the loop has stopped, later attempts change nothing |
| `Monitor.RunContinues` | wsmon.py:183-194 | a run that has not stopped continues on later attempts from the counter it reached, and the records concatenate |
| `Monitor.ErrorRecordsCountFailures` | wsmon.py:184-189 | the number of `ERROR` records equals the number of failed attempts consumed |

## Left out

- `Database` (`create_table`, `insert`): SQL over asynchronous connections. Its behaviour lives in the database server.
- `YAMLFile.save`: the file write through `yaml.dump` is I/O through a foreign serializer.
- `msg`, `parse_args`, `main` and the `KeyboardInterrupt` handler: clock reads and printing, argument and config parsing, sink wiring, `asyncio.gather` fan-out, shutdown.
- HTTP fetching (`session.get`, `resp.text()`): network I/O. Each probe is an `Attempt` value, either the completed exchange or "raised".
- Regex compilation and search: a library outside the model. It is the `Search` function parameter.
- Clock readings: the times are opaque `Timestamp` values carried by each attempt. `time_diff` is a `real` with no float arithmetic.
- `Observations.ErrorRecord`: the source writes the integer `0` as the failure's `time_diff`; the model writes the real `0.0`.
- `asyncio.sleep(site.check_interval)` and the concurrency between site loops. This includes the interleaving of different sites' records in a shared sink.
- `Monitor.Wrapper`: the source loops forever. The model runs one finite sequence of attempts, the ones made before the process ends. `StopIsFinal` and `RunContinues` relate a run to its extensions.
- `Monitor.Wrapper`: only the file sink is the datastore. A database write that raises inside `monitor_website` would also become an error record; that path is not modelled. The error-record write itself is outside the `try`: if it raises too, the exception leaves the loop and ends that site's monitoring, which the model does not capture either.
- `Sites.NewSite`: models the interval check with assertions enabled; under `python -O` the check disappears. Non-integer intervals and non-string patterns from the configuration are not modelled.
- `Sites.NewSite`: fails with the corrected message (see Findings), not the message as written.
- `PyText.ReprOptionRoundTrip`: `repr` escapes non-printable non-ASCII characters (`\x`, `\u`, `\U`). The model writes every non-ASCII character verbatim, because that needs the Unicode database.

## Findings

| source | as written | input that shows it | evidently intended | confidence | as-written member | corrected member |
|---|---|---|---|---|---|---|
| wsmon.py:44-47 | the assertion message is an f-string followed by two plain literals, so `{interval_min}` and `{interval_max}` are never filled in | `WSData("http://testsite.io", 4)` fails with `interval set to 4 but should be in range of  {interval_min} and {interval_max} seconds)` | `interval set to 4 but should be in range of 5 and 300 seconds` (the corrected text also drops the doubled space and the unmatched `)` of the literal) | high (not executed) | `Sites.IntervalMessageAsWrittenLeavesPlaceholders` | `Sites.IntervalMessageFilled` |

=== FILE: monitor.dfy ===
/**
 * The per-site monitor loop (`wrapper`): probe, write one record, and on a failure either
 * stop (the retry counter already equals the budget) or count the failure. The counter is
 * never reset, so the budget covers all failures over the loop's lifetime.
 *
 * The loop is driven by the finite sequence of attempts it gets to make before the process
 * ends; the interval sleep between cycles is not modelled.
 */
module Monitor {
  import opened Wrappers
  import opened Sites
  import opened Observations
  import opened Sink
  import opened Probe

  /** What one pass of the loop body produces: its record, the new counter, whether it breaks. */
  datatype Cycle = Cycle(record: Record, retry: int, stop: bool)

  /** One pass of the loop body of `wrapper` with the counter at `retry` and budget `maxRetry`. */
  function Step(site: WSData, search: Search, maxRetry: int, retry: int, a: Attempt): (c: Cycle)
    ensures c.record == Observe(site, search, a)
    ensures !Fails(site, search, a) ==> !c.stop && c.retry == retry
    ensures Fails(site, search, a) ==> (c.stop <==> retry == maxRetry)
    ensures c.stop ==> c.retry == retry
    ensures Fails(site, search, a) && !c.stop ==> c.retry == retry + 1
  {
    var record := Observe(site, search, a);
    if !Fails(site, search, a) then Cycle(record, retry, false)
    else if retry == maxRetry then Cycle(record, retry, true)
    else Cycle(record, retry + 1, false)
  }

  /** The effect of a run of the loop: records written in order, final counter, whether it
      stopped on the budget, and how many cycles ran. */
  datatype Outcome = Outcome(records: seq<Record>, retry: int, stopped: bool, cycles: nat)

  /** A run preceded by cycles that wrote `done`. */
  function Then(done: seq<Record>, o: Outcome): Outcome
  {
    o.(records := done + o.records, cycles := |done| + o.cycles)
  }

  /** The loop started with counter `retry` on `attempts`: it runs until the attempts are
      exhausted or a failure meets the budget. */
  function Run(site: WSData, search: Search, maxRetry: int, attempts: seq<Attempt>, retry: int): (o: Outcome)
    ensures |o.records| == o.cycles <= |attempts|
    ensures !o.stopped ==> o.cycles == |attempts|
    ensures o.stopped ==> o.cycles >= 1
    decreases |attempts|
  {
    if attempts == [] then Outcome([], retry, false, 0)
    else
      var c := Step(site, search, maxRetry, retry, attempts[0]);
      if c.stop then Outcome([c.record], retry, true, 1)
      else Then([c.record], Run(site, search, maxRetry, attempts[1..], c.retry))
  }

  /** Number of failing attempts in `attempts`. */
  function FailureCount(site: WSData, search: Search, attempts: seq<Attempt>): (n: nat)
    ensures n <= |attempts|
  {
    if attempts == [] then 0
    else (if Fails(site, search, attempts[0]) then 1 else 0) + FailureCount(site, search, attempts[1..])
  }

  /** The records the attempts produce, one each, in order. */
  function ObservedRecords(site: WSData, search: Search, attempts: seq<Attempt>): (rs: seq<Record>)
    ensures |rs| == |attempts|
    ensures forall i :: 0 <= i < |attempts| ==> rs[i] == Observe(site, search, attempts[i])
  {
    if attempts == [] then [] else [Observe(site, search, attempts[0])] + ObservedRecords(site, search, attempts[1..])
  }

  /** Number of records whose regex outcome is `ERROR`. */
  function ErrorCount(records: seq<Record>): (n: nat)
    ensures n <= |records|
  {
    if records == [] then 0
    else (if records[0].regexCheck == ErrorCheck then 1 else 0) + ErrorCount(records[1..])
  }

  lemma FirstAttempts(attempts: seq<Attempt>, k: nat)
    requires 1 <= k <= |attempts|
    ensures attempts[..k][0] == attempts[0] && attempts[..k][1..] == attempts[1..][..k - 1]
  {
  }

  lemma ThenThen(done: seq<Record>, more: seq<Record>, o: Outcome)
    ensures Then(done, Then(more, o)) == Then(done + more, o)
  {
    assert done + (more + o.records) == (done + more) + o.records;
  }

  /** One cycle of the loop from position `i`, after the cycles that wrote `done`. */
  lemma Advance(site: WSData, search: Search, maxRetry: int, attempts: seq<Attempt>, i: nat, retry: int,
                done: seq<Record>)
    requires i < |attempts|
    ensures var failed, record := Fails(site, search, attempts[i]), Observe(site, search, attempts[i]);
      Then(done, Run(site, search, maxRetry, attempts[i..], retry))
        == if failed && retry == maxRetry then Outcome(done + [record], retry, true, |done| + 1)
           else Then(done + [record], Run(site, search, maxRetry, attempts[i + 1..], if failed then retry + 1 else retry))
  {
    assert attempts[i..][0] == attempts[i] && attempts[i..][1..] == attempts[i + 1..];
    var c := Step(site, search, maxRetry, retry, attempts[i]);
    if !c.stop {
      ThenThen(done, [c.record], Run(site, search, maxRetry, attempts[i + 1..], c.retry));
    }
  }

  /** The `try`/`except` block of `wrapper`: probe once and write one record, the probe's
      own on success or the error record on failure. */
  method ProbeOnce(sink: YamlFile, site: WSData, search: Search, a: Attempt) returns (failed: bool)
    modifies sink`results
    ensures failed == Fails(site, search, a)
    ensures sink.results == old(sink.results) + [Entry(Observe(site, search, a))]
  {
    var observed := if a.Answered? then MonitorWebsite(site, search, a.response) else None;
    if observed.Some? {
      var r := observed.value;
      sink.Insert(r.url, r.status, r.requestTime, r.responseTime, r.timeDiff, r.regexCheck);
      failed := false;
    } else {
      sink.Insert(site.url, ErrorStatus, a.clock.first, a.clock.second, 0.0, ErrorCheck);
      failed := true;
    }
  }

  /** `wrapper`: runs the loop on the attempts, appending each cycle's record to the sink.
      The sink gains exactly the records of `Run`, in order, and the counter and stop flag
      are those of `Run`. */
  method Wrapper(sink: YamlFile, site: WSData, search: Search, maxRetry: int, attempts: seq<Attempt>)
    returns (stopped: bool, retry: int, cycles: nat)
    modifies sink`results
    ensures var o := Run(site, search, maxRetry, attempts, 0);
      && sink.results == old(sink.results) + Entries(o.records)
      && stopped == o.stopped && retry == o.retry && cycles == o.cycles
  {
    retry, cycles, stopped := 0, 0, false;
    ghost var written: seq<Record> := [];
    while cycles < |attempts|
      invariant cycles <= |attempts| && |written| == cycles
      invariant sink.results == old(sink.results) + Entries(written)
      invariant Run(site, search, maxRetry, attempts, 0)
             == Then(written, Run(site, search, maxRetry, attempts[cycles..], retry))
      invariant !stopped
      decreases |attempts| - cycles
    {
      ghost var record := Observe(site, search, attempts[cycles]);
      Advance(site, search, maxRetry, attempts, cycles, retry, written);
      EntriesAppend(written, [record]);
      var failed := ProbeOnce(sink, site, search, attempts[cycles]);
      written := written + [record];
      cycles := cycles + 1;
      if failed {
        if retry == maxRetry {
          assert Run(site, search, maxRetry, attempts, 0) == Outcome(written, retry, true, cycles);
          stopped := true;
          break;
        }
        retry := retry + 1;
      }
    }
    assert attempts[cycles..] == [] ==> Run(site, search, maxRetry, attempts, 0) == Outcome(written, retry, stopped, cycles);
  }

  /** The records written are the observations of the attempts the loop consumed, in order. */
  lemma {:induction false} RunWritesObservations(site: WSData, search: Search, maxRetry: int,
                                                 attempts: seq<Attempt>, retry: int)
    ensures var o := Run(site, search, maxRetry, attempts, retry);
      o.records == ObservedRecords(site, search, attempts[..o.cycles])
  {
    if attempts != [] {
      var c := Step(site, search, maxRetry, retry, attempts[0]);
      var o := Run(site, search, maxRetry, attempts, retry);
      FirstAttempts(attempts, o.cycles);
      if !c.stop {
        RunWritesObservations(site, search, maxRetry, attempts[1..], c.retry);
      }
    }
  }

  /** With the counter within the budget, the loop stops exactly when the attempts hold more
      failures than the budget has left; it stops on a failure, the one that uses the last
      of the budget; and the counter counts the failures that did not stop it. */
  lemma {:induction false} RunSpendsBudget(site: WSData, search: Search, maxRetry: int,
                                           attempts: seq<Attempt>, retry: int)
    requires 0 <= retry <= maxRetry
    ensures var o := Run(site, search, maxRetry, attempts, retry);
      && (o.stopped <==> FailureCount(site, search, attempts) > maxRetry - retry)
      && (o.stopped ==> FailureCount(site, search, attempts[..o.cycles]) == maxRetry - retry + 1
                        && Fails(site, search, attempts[o.cycles - 1]))
      && o.retry == retry + FailureCount(site, search, attempts[..o.cycles]) - (if o.stopped then 1 else 0)
      && retry <= o.retry <= maxRetry
  {
    var o := Run(site, search, maxRetry, attempts, retry);
    if attempts == [] {
      assert attempts[..o.cycles] == [];
    } else {
      var a := attempts[0];
      var c := Step(site, search, maxRetry, retry, a);
      FirstAttempts(attempts, o.cycles);
      if c.stop {
        assert attempts[..o.cycles][1..] == [];
      } else {
        RunSpendsBudget(site, search, maxRetry, attempts[1..], c.retry);
      }
    }
  }

  /** A budget below the starting counter is never met: the loop never stops and the counter
      counts every failure. */
  lemma {:induction false} UnreachableBudgetNeverStops(site: WSData, search: Search, maxRetry: int,
                                                       attempts: seq<Attempt>, retry: int)
    requires maxRetry < retry
    ensures var o := Run(site, search, maxRetry, attempts, retry);
      !o.stopped && o.cycles == |attempts| && o.retry == retry + FailureCount(site, search, attempts)
  {
    if attempts != [] {
      var c := Step(site, search, maxRetry, retry, attempts[0]);
      UnreachableBudgetNeverStops(site, search, maxRetry, attempts[1..], c.retry);
    }
  }

  lemma {:induction false} AllFailingCount(site: WSData, search: Search, attempts: seq<Attempt>)
    requires forall i :: 0 <= i < |attempts| ==> Fails(site, search, attempts[i])
    ensures FailureCount(site, search, attempts) == |attempts|
  {
    if attempts != [] {
      AllFailingCount(site, search, attempts[1..]);
    }
  }

  /** When every attempt fails, a budget of k writes exactly k + 1 error records and stops. */
  lemma AllFailuresStopAfterBudget(site: WSData, search: Search, maxRetry: int, attempts: seq<Attempt>)
    requires 0 <= maxRetry < |attempts|
    requires forall i :: 0 <= i < |attempts| ==> Fails(site, search, attempts[i])
    ensures var o := Run(site, search, maxRetry, attempts, 0);
      && o.stopped && o.cycles == maxRetry + 1 && o.retry == maxRetry
      && |o.records| == maxRetry + 1
      && forall i :: 0 <= i < |o.records| ==> IsErrorRecord(o.records[i], site.url)
  {
    var o := Run(site, search, maxRetry, attempts, 0);
    AllFailingCount(site, search, attempts);
    RunSpendsBudget(site, search, maxRetry, attempts, 0);
    AllFailingCount(site, search, attempts[..o.cycles]);
    RunWritesObservations(site, search, maxRetry, attempts, 0);
    forall i | 0 <= i < |o.records| ensures IsErrorRecord(o.records[i], site.url) {
      assert o.records[i] == Observe(site, search, attempts[i]);
    }
  }

  /** With the default budget of 2, a site whose every probe fails gets three error records,
      and no fourth cycle runs. */
  lemma DefaultBudgetWritesThreeErrors(site: WSData, search: Search, attempts: seq<Attempt>)
    requires |attempts| >= 4
    requires forall i :: 0 <= i < |attempts| ==> Fails(site, search, attempts[i])
    ensures var o := Run(site, search, DefaultMaxRetry, attempts, 0);
      o.stopped && o.cycles == 3 && |o.records| == 3
  {
    AllFailuresStopAfterBudget(site, search, DefaultMaxRetry, attempts);
  }

  /** Once the loop has stopped, further attempts change nothing. */
  lemma {:induction false} StopIsFinal(site: WSData, search: Search, maxRetry: int,
                                       attempts: seq<Attempt>, more: seq<Attempt>, retry: int)
    requires Run(site, search, maxRetry, attempts, retry).stopped
    ensures Run(site, search, maxRetry, attempts + more, retry) == Run(site, search, maxRetry, attempts, retry)
  {
    var c := Step(site, search, maxRetry, retry, attempts[0]);
    assert (attempts + more)[0] == attempts[0];
    if !c.stop {
      assert (attempts + more)[1..] == attempts[1..] + more;
      StopIsFinal(site, search, maxRetry, attempts[1..], more, c.retry);
    }
  }

  /** A run that has not stopped continues on later attempts from the counter it reached. */
  lemma {:induction false} RunContinues(site: WSData, search: Search, maxRetry: int,
                                        attempts: seq<Attempt>, more: seq<Attempt>, retry: int)
    requires !Run(site, search, maxRetry, attempts, retry).stopped
    ensures var o := Run(site, search, maxRetry, attempts, retry);
      Run(site, search, maxRetry, attempts + more, retry) == Then(o.records, Run(site, search, maxRetry, more, o.retry))
  {
    if attempts == [] {
      assert attempts + more == more;
    } else {
      var c := Step(site, search, maxRetry, retry, attempts[0]);
      assert !c.stop;
      var rest := Run(site, search, maxRetry, attempts[1..], c.retry);
      assert Run(site, search, maxRetry, attempts, retry) == Then([c.record], rest);
      assert (attempts + more)[0] == attempts[0];
      assert (attempts + more)[1..] == attempts[1..] + more;
      assert Run(site, search, maxRetry, attempts + more, retry)
          == Then([c.record], Run(site, search, maxRetry, attempts[1..] + more, c.retry));
      RunContinues(site, search, maxRetry, attempts[1..], more, c.retry);
      ThenThen([c.record], rest.records, Run(site, search, maxRetry, more, rest.retry));
    }
  }

  lemma {:induction false} ObservationErrors(site: WSData, search: Search, attempts: seq<Attempt>)
    ensures ErrorCount(ObservedRecords(site, search, attempts)) == FailureCount(site, search, attempts)
  {
    if attempts != [] {
      var rs := ObservedRecords(site, search, attempts);
      assert rs[1..] == ObservedRecords(site, search, attempts[1..]);
      ObservationErrors(site, search, attempts[1..]);
    }
  }

  /** Every consumed attempt leaves one record, and the `ERROR` records are exactly the
      failures: their number is the number of failed attempts the loop consumed. */
  lemma ErrorRecordsCountFailures(site: WSData, search: Search, maxRetry: int, attempts: seq<Attempt>)
    ensures var o := Run(site, search, maxRetry, attempts, 0);
      ErrorCount(o.records) == FailureCount(site, search, attempts[..o.cycles])
  {
    var o := Run(site, search, maxRetry, attempts, 0);
    RunWritesObservations(site, search, maxRetry, attempts, 0);
    ObservationErrors(site, search, attempts[..o.cycles]);
  }
}

=== FILE: observations.dfy ===
/**
 * One observation of a probe attempt, in the shape every sink receives it:
 * url, status code, request and response time, time difference and regex outcome.
 */
module Observations {

  /** A `datetime` reading, represented by its `str()` text; clock values are opaque here. */
  datatype Timestamp = Timestamp(text: string)

  /** The two `datetime.now()` readings taken when a failed attempt is recorded. */
  datatype Clock = Clock(first: Timestamp, second: Timestamp)

  datatype Record = Record(
    url: string,
    status: int,
    requestTime: Timestamp,
    responseTime: Timestamp,
    timeDiff: real,
    regexCheck: string)

  /** Status code written for an attempt that raised before any status was known. */
  const ErrorStatus: int := 444
  /** Regex outcome written for an attempt that raised. */
  const ErrorCheck: string := "ERROR"

  /** The record written for a failed attempt. */
  function ErrorRecord(url: string, clock: Clock): (r: Record)
    ensures IsErrorRecord(r, url)
    ensures r.requestTime == clock.first && r.responseTime == clock.second
  {
    Record(url, ErrorStatus, clock.first, clock.second, 0.0, ErrorCheck)
  }

  predicate IsErrorRecord(r: Record, url: string)
  {
    r.url == url && r.status == 444 && r.timeDiff == 0.0 && r.regexCheck == "ERROR"
  }
}

=== FILE: probe.dfy ===
/**
 * One probe of a site (`monitor_website`): the HTTP exchange is given as data, the content
 * check is classified, and the result is either an observation or a raised exception.
 */
module Probe {
  import opened Wrappers
  import opened Sites
  import opened Observations

  /** The regular-expression engine, `re.compile(pattern).search(text)`, supplied by the caller:
      `None` when the pattern does not compile (the call raises), otherwise whether a match exists. */
  type Search = (string, string) -> Option<bool>

  const NotUsed: string := "not used"
  const NoMatch: string := "no match found"
  /** The value the outcome variable starts with before the branch assigns it. */
  const Unassigned: string := "not unused"

  /** Python truthiness of the optional pattern: `None` and `""` are false. */
  predicate Truthy(pattern: Option<string>) { pattern.Some? && pattern.value != "" }

  function FoundOutcome(pattern: string): string { pattern + " found" }

  /** The content-check outcome of one response body, or `None` when compiling the pattern raises. */
  function RegexCheck(pattern: Option<string>, text: string, search: Search): (r: Option<string>)
    ensures r == Some(NotUsed) <==> !Truthy(pattern)
    ensures r.None? <==> Truthy(pattern) && search(pattern.value, text).None?
    ensures Truthy(pattern) && search(pattern.value, text) == Some(true) ==> r == Some(FoundOutcome(pattern.value))
    ensures r == Some(NoMatch) <==>
              Truthy(pattern) && (search(pattern.value, text) == Some(false)
                                  || (search(pattern.value, text) == Some(true) && pattern.value == "no match"))
    ensures r.Some? ==> r.value != Unassigned && r.value != ErrorCheck
  {
    if Truthy(pattern) then
      match search(pattern.value, text)
      case None => None
      case Some(found) =>
        if found then
          var f := FoundOutcome(pattern.value);
          assert f[|f| - 6..] == " found";
          assert f != NotUsed by { assert NotUsed[|NotUsed| - 6..] != " found"; }
          assert f != Unassigned by { assert Unassigned[|Unassigned| - 6..] != " found"; }
          assert f == NoMatch ==> pattern.value == "no match" by {
            if f == NoMatch { assert pattern.value == f[..|f| - 6]; }
          }
          Some(f)
        else Some(NoMatch)
    else Some(NotUsed)
  }

  /** What the HTTP exchange yielded: status, decoded body and the clock readings around it. */
  datatype Response = Response(status: int, body: string, requestTime: Timestamp, responseTime: Timestamp,
                               timeDiff: real)

  /** One probe attempt: either the request completed, or it raised (connection, timeout,
      decoding). Each carries the clock readings a failure record would take. */
  datatype Attempt =
    | Answered(response: Response, clock: Clock)
    | Raised(clock: Clock)

  /** `monitor_website` after the exchange: the observation it inserts, or `None` if it raises. */
  function MonitorWebsite(site: WSData, search: Search, response: Response): (r: Option<Record>)
    ensures r.None? <==> RegexCheck(site.pattern, response.body, search).None?
    ensures r.Some? ==> r.value.url == site.url && r.value.status == response.status
    ensures r.Some? ==> r.value.requestTime == response.requestTime && r.value.responseTime == response.responseTime
    ensures r.Some? ==> r.value.timeDiff == response.timeDiff
    ensures r.Some? ==> Some(r.value.regexCheck) == RegexCheck(site.pattern, response.body, search)
    ensures r.Some? ==> r.value.regexCheck != ErrorCheck
  {
    match RegexCheck(site.pattern, response.body, search)
    case None => None
    case Some(check) =>
      Some(Record(site.url, response.status, response.requestTime, response.responseTime, response.timeDiff, check))
  }

  /** An attempt fails when it raised, or when the probe raised while checking the content. */
  predicate Fails(site: WSData, search: Search, a: Attempt)
    ensures Fails(site, search, a) <==>
              a.Raised? || (Truthy(site.pattern) && search(site.pattern.value, a.response.body).None?)
  {
    a.Raised? || MonitorWebsite(site, search, a.response).None?
  }

  /** The one record a cycle of the monitor loop writes for an attempt. */
  function Observe(site: WSData, search: Search, a: Attempt): (r: Record)
    ensures r.url == site.url
    ensures Fails(site, search, a) ==> r == ErrorRecord(site.url, a.clock)
    ensures !Fails(site, search, a) ==> Some(r) == MonitorWebsite(site, search, a.response)
    ensures r.regexCheck == ErrorCheck <==> Fails(site, search, a)
  {
    if Fails(site, search, a) then ErrorRecord(site.url, a.clock)
    else MonitorWebsite(site, search, a.response).value
  }

  /** The content check of the source's tests: pattern `(.*) example` against a body that matches. */
  lemma FoundForTestPattern(body: string, search: Search)
    requires search("(.*) example", body) == Some(true)
    ensures RegexCheck(Some("(.*) example"), body, search) == Some("(.*) example found")
  {
    assert FoundOutcome("(.*) example") == "(.*) example found";
  }
}

=== FILE: py_text.dfy ===
/**
 * The two Python text renderings that `WSData.__str__` relies on:
 * `str()` of an integer (`%s`) and `repr()` of a string (`%r`),
 * each paired with a parser that inverts it.
 */
module PyText {
  import opened Wrappers

  predicate IsDigit(c: char) { '0' <= c <= '9' }

  predicate AllDigits(s: string) { forall i :: 0 <= i < |s| ==> IsDigit(s[i]) }

  function DigitChar(d: nat): (c: char)
    requires d < 10
    ensures IsDigit(c) && c as int - '0' as int == d
  {
    ('0' as int + d) as char
  }

  /** Decimal digits of a natural number, most significant first, without leading zeros. */
  function NatDigits(n: nat): (s: string)
    ensures |s| >= 1 && AllDigits(s)
    ensures |s| > 1 ==> s[0] != '0'
  {
    if n < 10 then [DigitChar(n)] else NatDigits(n / 10) + [DigitChar(n % 10)]
  }

  /** Python's `str(n)` for an integer: an optional minus sign followed by decimal digits. */
  function Str(n: int): (s: string)
    ensures |s| >= 1
    ensures forall i :: 0 <= i < |s| ==> s[i] == '-' || IsDigit(s[i])
    ensures n >= 0 <==> AllDigits(s)
  {
    if n < 0 then
      var s := "-" + NatDigits(-n);
      assert !IsDigit(s[0]);
      s
    else NatDigits(n)
  }

  /** The value of a string of decimal digits (the empty string reads as 0). */
  function NatValue(s: string): nat
    requires AllDigits(s)
  {
    if s == [] then 0 else 10 * NatValue(s[..|s| - 1]) + (s[|s| - 1] as int - '0' as int)
  }

  /** Python's `int(s)` restricted to an optional minus sign and decimal digits. */
  function ParseInt(s: string): Option<int>
  {
    if |s| >= 2 && s[0] == '-' && AllDigits(s[1..]) then Some(-(NatValue(s[1..]) as int))
    else if |s| >= 1 && AllDigits(s) then Some(NatValue(s))
    else None
  }

  lemma {:induction false} NatDigitsRoundTrip(n: nat)
    ensures NatValue(NatDigits(n)) == n
  {
    if n >= 10 {
      var s := NatDigits(n);
      assert s[..|s| - 1] == NatDigits(n / 10);
      NatDigitsRoundTrip(n / 10);
    }
  }

  /** Reading back `str(n)` gives `n`. */
  lemma StrRoundTrip(n: int)
    ensures ParseInt(Str(n)) == Some(n)
  {
    var s := Str(n);
    if n < 0 {
      assert s[1..] == NatDigits(-n);
      NatDigitsRoundTrip(-n);
    } else {
      NatDigitsRoundTrip(n);
    }
  }

  // ---------------------------------------------------------------------------
  // repr() of a string

  function HexDigit(d: nat): (c: char)
    requires d < 16
  {
    "0123456789abcdef"[d]
  }

  function HexValue(c: char): (r: Option<nat>)
    ensures r.Some? ==> r.value < 16
  {
    if '0' <= c <= '9' then Some(c as int - '0' as int)
    else if 'a' <= c <= 'f' then Some(c as int - 'a' as int + 10)
    else None
  }

  lemma HexDigitValue(d: nat)
    requires d < 16
    ensures HexValue(HexDigit(d)) == Some(d)
  {
  }

  /** True for the characters `repr` writes as a `\xNN` escape: C0 controls and DEL. */
  predicate IsHexEscaped(c: char) { (c as int < 0x20 && c !in "\t\n\r") || c as int == 0x7F }

  /** How `repr` writes one character inside a literal delimited by `quote`. */
  function EscapeChar(c: char, quote: char): string
  {
    if c == quote || c == '\\' then ['\\', c]
    else if c == '\t' then "\\t"
    else if c == '\n' then "\\n"
    else if c == '\r' then "\\r"
    else if IsHexEscaped(c) then ['\\', 'x', HexDigit(c as int / 16), HexDigit(c as int % 16)]
    else [c]
  }

  function Escape(s: string, quote: char): string
  {
    if s == [] then [] else EscapeChar(s[0], quote) + Escape(s[1..], quote)
  }

  /** The delimiter `repr` picks: double quotes only when `s` holds a single quote and no double quote. */
  function QuoteFor(s: string): (q: char)
    ensures q == '\'' || q == '"'
    ensures q == '"' <==> '\'' in s && '"' !in s
  {
    if '\'' in s && '"' !in s then '"' else '\''
  }

  /** Python's `repr(s)` for a string. */
  function Repr(s: string): (r: string)
    ensures |r| >= 2 && r[0] == r[|r| - 1] == QuoteFor(s)
  {
    var q := QuoteFor(s);
    [q] + Escape(s, q) + [q]
  }

  /** `%r` of an optional string: `None` or the string's repr. */
  function ReprOption(p: Option<string>): string
  {
    match p
    case None => "None"
    case Some(s) => Repr(s)
  }

  function Prepend(c: char, rest: Option<string>): Option<string>
  {
    match rest
    case None => None
    case Some(s) => Some([c] + s)
  }

  /** Reads the escape sequences of a string literal's body back into characters. */
  function Unescape(t: string): Option<string>
  {
    if t == [] then Some([])
    else if t[0] != '\\' then Prepend(t[0], Unescape(t[1..]))
    else if |t| >= 2 && t[1] in "\\'\"" then Prepend(t[1], Unescape(t[2..]))
    else if |t| >= 2 && t[1] == 't' then Prepend('\t', Unescape(t[2..]))
    else if |t| >= 2 && t[1] == 'n' then Prepend('\n', Unescape(t[2..]))
    else if |t| >= 2 && t[1] == 'r' then Prepend('\r', Unescape(t[2..]))
    else if |t| >= 4 && t[1] == 'x' && HexValue(t[2]).Some? && HexValue(t[3]).Some? then
      Prepend((16 * HexValue(t[2]).value + HexValue(t[3]).value) as char, Unescape(t[4..]))
    else None
  }

  /** Reads a quoted string literal back into the string it denotes. */
  function Unrepr(t: string): Option<string>
  {
    if |t| >= 2 && (t[0] == '\'' || t[0] == '"') && t[|t| - 1] == t[0] then Unescape(t[1..|t| - 1])
    else None
  }

  /** Reads back the output of `%r` on an optional string. */
  function UnreprOption(t: string): Option<Option<string>>
  {
    if t == "None" then Some(None)
    else match Unrepr(t)
      case None => None
      case Some(s) => Some(Some(s))
  }

  lemma UnescapeEscapeChar(c: char, quote: char, t: string)
    requires quote == '\'' || quote == '"'
    ensures Unescape(EscapeChar(c, quote) + t) == Prepend(c, Unescape(t))
  {
    var e := EscapeChar(c, quote);
    if c == quote || c == '\\' {
      assert (e + t)[2..] == t;
    } else if c == '\t' || c == '\n' || c == '\r' {
      assert (e + t)[2..] == t;
    } else if IsHexEscaped(c) {
      var hi, lo := c as int / 16, c as int % 16;
      HexDigitValue(hi);
      HexDigitValue(lo);
      assert (e + t)[4..] == t;
      assert (16 * hi + lo) as char == c;
    } else {
      assert (e + t)[1..] == t;
    }
  }

  lemma {:induction false} EscapeRoundTrip(s: string, quote: char)
    requires quote == '\'' || quote == '"'
    ensures Unescape(Escape(s, quote)) == Some(s)
  {
    if s != [] {
      UnescapeEscapeChar(s[0], quote, Escape(s[1..], quote));
      EscapeRoundTrip(s[1..], quote);
      assert [s[0]] + s[1..] == s;
    }
  }

  /** Reading back `repr(s)` gives `s`. */
  lemma ReprRoundTrip(s: string)
    ensures Unrepr(Repr(s)) == Some(s)
  {
    var q := QuoteFor(s);
    var r := Repr(s);
    assert r[1..|r| - 1] == Escape(s, q);
    EscapeRoundTrip(s, q);
  }

  /** Reading back `%r` of an optional string gives it back, `None` included. */
  lemma ReprOptionRoundTrip(p: Option<string>)
    ensures UnreprOption(ReprOption(p)) == Some(p)
  {
    if p.Some? {
      var r := Repr(p.value);
      assert r != "None" by { assert r[0] != 'N'; }
      ReprRoundTrip(p.value);
    }
  }

  /** Printable ASCII characters other than quotes and backslash are written verbatim by `repr`. */
  predicate IsPlain(c: char) { c != '\'' && c != '"' && c != '\\' && ' ' <= c && c as int < 0x7F }

  lemma {:induction false} EscapeUnchanged(s: string, quote: char)
    requires quote == '\'' || quote == '"'
    requires forall i :: 0 <= i < |s| ==> IsPlain(s[i])
    ensures Escape(s, quote) == s
  {
    if s != [] {
      EscapeUnchanged(s[1..], quote);
      assert [s[0]] + s[1..] == s;
    }
  }

  /** A string of plain characters is rendered between single quotes, unchanged. */
  lemma ReprVerbatim(s: string)
    requires forall i :: 0 <= i < |s| ==> IsPlain(s[i])
    ensures Repr(s) == "'" + s + "'"
  {
    assert '\'' !in s by {
      forall i | 0 <= i < |s| ensures s[i] != '\'' { assert IsPlain(s[i]); }
    }
    EscapeUnchanged(s, '\'');
  }
}

=== FILE: sink.dfy ===
/**
 * The file sink `YAMLFile`: an in-memory list of single-key mappings, one per observation,
 * keyed by `"<request_time> <url>"`.
 */
module Sink {
  import opened Wrappers
  import opened Observations

  /** The key of an entry: the request time's text, a space, then the url. */
  function Key(r: Record): (k: string)
    ensures |k| == |r.requestTime.text| + 1 + |r.url|
    ensures k[..|r.requestTime.text|] == r.requestTime.text
    ensures k[|r.requestTime.text|] == ' '
    ensures k[|r.requestTime.text| + 1..] == r.url
  {
    r.requestTime.text + " " + r.url
  }

  /** One list element of `results`: a mapping with the single key `Key(r)` holding all fields. */
  function Entry(r: Record): (e: map<string, Record>)
    ensures |e| == 1 && Key(r) in e && e[Key(r)] == r
  {
    map[Key(r) := r]
  }

  function Entries(rs: seq<Record>): (es: seq<map<string, Record>>)
    ensures |es| == |rs|
    ensures forall i :: 0 <= i < |rs| ==> es[i] == Entry(rs[i])
  {
    if rs == [] then [] else [Entry(rs[0])] + Entries(rs[1..])
  }

  lemma {:induction false} EntriesAppend(a: seq<Record>, b: seq<Record>)
    ensures Entries(a + b) == Entries(a) + Entries(b)
  {
    var l, r := Entries(a + b), Entries(a) + Entries(b);
    assert |l| == |r|;
    forall i | 0 <= i < |l| ensures l[i] == r[i] {
      if i < |a| { assert (a + b)[i] == a[i]; } else { assert (a + b)[i] == b[i - |a|]; }
    }
  }

  class YamlFile {
    /** Connection parameters, accepted for the same call shape as the database sink and unused. */
    var conninfo: Option<map<string, string>>
    var tableName: Option<string>
    var results: seq<map<string, Record>>

    constructor (conninfo: Option<map<string, string>>, tableName: Option<string>)
      ensures this.conninfo == conninfo && this.tableName == tableName
      ensures results == []
    {
      this.conninfo := conninfo;
      this.tableName := tableName;
      results := [];
    }

    /** Preparing the file sink does nothing. */
    method CreateTable()
      ensures unchanged(this)
    {
    }

    /** Appends one entry for the observation; earlier entries stay as they were. */
    method Insert(url: string, statusCode: int, requestTime: Timestamp, responseTime: Timestamp,
                  timeDiff: real, regexCheck: string)
      modifies this`results
      ensures results == old(results) + [Entry(Record(url, statusCode, requestTime, responseTime, timeDiff, regexCheck))]
    {
      results := results + [Entry(Record(url, statusCode, requestTime, responseTime, timeDiff, regexCheck))];
    }
  }
}

=== FILE: sites.dfy ===
/**
 * The site descriptor `WSData`: construction with the check-interval bounds,
 * its defaults, and its `url=… check_interval=… pattern=…` summary.
 */
module Sites {
  import opened Wrappers
  import opened PyText

  const IntervalMin: int := 5
  const IntervalMax: int := 300
  const DefaultInterval: int := 5
  /** The class-wide retry budget `WSData.max_retry` before configuration overrides it. */
  const DefaultMaxRetry: int := 2

  /** One monitored website: its url, seconds between probes and optional content pattern. */
  datatype WSData = WSData(url: string, checkInterval: int, pattern: Option<string>)
  {
    predicate Valid() { IntervalMin <= checkInterval <= IntervalMax }
  }

  /** The `AssertionError` raised when the interval is out of range, with its message. */
  datatype SiteError = AssertionError(message: string)

  /** The message the assertion carries, as the source writes it: only the first of the three
      adjacent literals is an f-string, so the bounds stay as literal `{…}` placeholders. */
  function IntervalMessageAsWritten(checkInterval: int): (m: string)
    ensures |m| == 16 + |Str(checkInterval)| + 27 + 43
    ensures m[..16] == "interval set to "
    ensures m[16..16 + |Str(checkInterval)|] == Str(checkInterval)
    ensures m[16 + |Str(checkInterval)|..|m| - 43] == " but should be in range of "
    ensures m[|m| - 43..] == " {interval_min} and {interval_max} seconds)"
  {
    var head, n := "interval set to ", Str(checkInterval);
    var tail := " {interval_min} and {interval_max} seconds)";
    var m := head + n + " but should be in range of " + tail;
    assert m[|m| - 43..] == tail;
    forall i | 0 <= i < |n| ensures m[16 + i] == n[i] {
      assert m[16 + i] == (head + n)[16 + i];
    }
    m
  }

  /** The message with both bounds filled in, as the source evidently intends. */
  function IntervalMessage(checkInterval: int): string
  {
    "interval set to " + Str(checkInterval) + " but should be in range of "
    + (Str(IntervalMin) + " and " + Str(IntervalMax) + " seconds")
  }

  predicate IsBrace(c: char) { c == '{' || c == '}' }

  predicate HasBrace(s: string) { exists i :: 0 <= i < |s| && IsBrace(s[i]) }

  lemma NoBraceConcat(a: string, b: string)
    requires !HasBrace(a) && !HasBrace(b)
    ensures !HasBrace(a + b)
  {
    forall i | 0 <= i < |a + b| ensures !IsBrace((a + b)[i]) {
      if i < |a| { assert (a + b)[i] == a[i]; } else { assert (a + b)[i] == b[i - |a|]; }
    }
  }

  /** As written, every out-of-range interval yields a message with unfilled placeholders. */
  lemma IntervalMessageAsWrittenLeavesPlaceholders(checkInterval: int)
    ensures HasBrace(IntervalMessageAsWritten(checkInterval))
  {
    var m := IntervalMessageAsWritten(checkInterval);
    var k := |"interval set to " + Str(checkInterval) + " but should be in range of "| + 1;
    assert m[k] == '{';
  }

  lemma BoundsText()
    ensures Str(IntervalMin) == "5" && Str(IntervalMax) == "300"
  {
    assert NatDigits(30) == "30" by { assert NatDigits(3) == "3"; }
  }

  lemma MessagePartsHaveNoBrace(n: string)
    requires forall i :: 0 <= i < |n| ==> n[i] == '-' || IsDigit(n[i])
    ensures !HasBrace("interval set to ") && !HasBrace(" but should be in range of ")
    ensures !HasBrace("5 and 300 seconds") && !HasBrace(n)
  {
    forall i | 0 <= i < |n| ensures !IsBrace(n[i]) { }
  }

  /** The corrected message has no placeholder left. */
  lemma IntervalMessageFilled(checkInterval: int)
    ensures !HasBrace(IntervalMessage(checkInterval))
  {
    var n := Str(checkInterval);
    var head := "interval set to ";
    var mid := " but should be in range of ";
    BoundsText();
    MessagePartsHaveNoBrace(n);
    NoBraceConcat(head, n);
    NoBraceConcat(head + n, mid);
    NoBraceConcat(head + n + mid, "5 and 300 seconds");
  }

  /** The corrected message shows the rejected interval and ends with both bounds. */
  lemma IntervalMessageNamesBounds(checkInterval: int)
    ensures IntervalMessage(checkInterval)[16..16 + |Str(checkInterval)|] == Str(checkInterval)
    ensures IntervalMessage(checkInterval)[|IntervalMessage(checkInterval)| - 17..] == "5 and 300 seconds"
  {
    var n := Str(checkInterval);
    var head := "interval set to ";
    var mid := " but should be in range of ";
    var tail := "5 and 300 seconds";
    BoundsText();
    var m := head + n + mid + tail;
    assert |head| == 16;
    assert m == IntervalMessage(checkInterval);
    forall i | 0 <= i < |n| ensures m[16 + i] == n[i] {
      assert m[16 + i] == (head + n)[16 + i];
    }
    assert m[16..16 + |n|] == n;
    assert m[|m| - 17..] == tail;
  }

  /** `WSData(url, check_interval, pattern)`: succeeds exactly when the interval is within
      [5, 300], storing the arguments unchanged; otherwise the assertion fails. */
  function NewSite(url: string, checkInterval: int, pattern: Option<string>): (r: Result<WSData, SiteError>)
    ensures r.Success? <==> IntervalMin <= checkInterval <= IntervalMax
    ensures r.Success? ==> r.value.Valid()
    ensures r.Success? ==> r.value.url == url && r.value.checkInterval == checkInterval && r.value.pattern == pattern
    ensures r.Failure? ==> r.error == AssertionError(IntervalMessage(checkInterval))
  {
    if checkInterval >= IntervalMin && checkInterval <= IntervalMax then
      Success(WSData(url, checkInterval, pattern))
    else
      Failure(AssertionError(IntervalMessage(checkInterval)))
  }

  /** `WSData(url)`: the defaults are a 5-second interval and no pattern. */
  function NewSiteWithDefaults(url: string): (r: Result<WSData, SiteError>)
    ensures r.Success?
    ensures r.value == WSData(url, 5, None)
  {
    NewSite(url, DefaultInterval, None)
  }

  /** `str(site)`: `url=%s check_interval=%s pattern=%r`. */
  function Summary(site: WSData): (s: string)
    ensures SummaryHead(site.url) <= s
    ensures ParseSettings(s[|SummaryHead(site.url)|..]) == Some((site.checkInterval, site.pattern))
  {
    var head, settings := SummaryHead(site.url), SummarySettings(site.checkInterval, site.pattern);
    assert (head + settings)[|head|..] == settings;
    ParseSettingsRoundTrip(site.checkInterval, site.pattern);
    head + settings
  }

  /** The summary up to the interval: `url=<url> check_interval=`. */
  function SummaryHead(url: string): string { "url=" + url + " check_interval=" }

  /** The summary from the interval on: `<interval> pattern=<repr of pattern>`. */
  function SummarySettings(checkInterval: int, pattern: Option<string>): string
  {
    Str(checkInterval) + " pattern=" + ReprOption(pattern)
  }

  /** Index of the first space in `s`, or `|s|` when there is none. */
  function IndexOfSpace(s: string): (k: nat)
    ensures k <= |s|
    ensures forall i :: 0 <= i < k ==> s[i] != ' '
    ensures k < |s| ==> s[k] == ' '
  {
    if s == [] || s[0] == ' ' then 0 else 1 + IndexOfSpace(s[1..])
  }

  /** Reads back the part of a summary after the url: the interval, then the pattern. */
  function ParseSettings(rest: string): Option<(int, Option<string>)>
  {
    var k := IndexOfSpace(rest);
    if k == |rest| || !(" pattern=" <= rest[k..]) then None
    else
      match (ParseInt(rest[..k]), UnreprOption(rest[k + 9..]))
      case (Some(n), Some(p)) => Some((n, p))
      case _ => None
  }

  /** Reads a summary back into a site, given the site's url. */
  function ParseSummary(url: string, s: string): Option<WSData>
  {
    var head := SummaryHead(url);
    if !(head <= s) then None
    else
      match ParseSettings(s[|head|..])
      case Some((n, p)) => Some(WSData(url, n, p))
      case None => None
  }

  lemma IndexOfSpaceAfterNumber(n: string, tail: string)
    requires forall i :: 0 <= i < |n| ==> n[i] != ' '
    requires |tail| >= 1 && tail[0] == ' '
    ensures IndexOfSpace(n + tail) == |n|
  {
    var s := n + tail;
    assert s[|n|] == ' ';
    assert forall i :: 0 <= i < |n| ==> s[i] == n[i];
  }

  lemma ParseSettingsRoundTrip(checkInterval: int, pattern: Option<string>)
    ensures ParseSettings(SummarySettings(checkInterval, pattern)) == Some((checkInterval, pattern))
  {
    var n := Str(checkInterval);
    var r := ReprOption(pattern);
    var tail := " pattern=" + r;
    assert SummarySettings(checkInterval, pattern) == n + tail;
    assert forall i :: 0 <= i < |n| ==> n[i] != ' ' by {
      forall i | 0 <= i < |n| ensures n[i] != ' ' { assert n[i] == '-' || IsDigit(n[i]); }
    }
    IndexOfSpaceAfterNumber(n, tail);
    assert (n + tail)[..|n|] == n;
    assert (n + tail)[|n|..] == tail;
    assert (n + tail)[|n| + 9..] == r;
    StrRoundTrip(checkInterval);
    ReprOptionRoundTrip(pattern);
  }

  /** The summary holds the interval and the pattern recoverably: reading it back with the
      site's url gives the site. */
  lemma SummaryRoundTrip(site: WSData)
    ensures ParseSummary(site.url, Summary(site)) == Some(site)
  {
    var head := SummaryHead(site.url);
    var rest := SummarySettings(site.checkInterval, site.pattern);
    assert (head + rest)[|head|..] == rest;
    ParseSettingsRoundTrip(site.checkInterval, site.pattern);
  }

  /** Two sites with the same url and the same summary are the same site. */
  lemma SummaryDeterminesSite(a: WSData, b: WSData)
    requires a.url == b.url && Summary(a) == Summary(b)
    ensures a == b
  {
    SummaryRoundTrip(a);
    SummaryRoundTrip(b);
  }

  /** The summary of the site used by the source's tests. */
  lemma SummaryOfTestSite()
    ensures Summary(WSData("http://testsite.io", 111, Some("(.*) example")))
         == ("url=" + "http://testsite.io" + " check_interval=") + ("111" + " pattern=" + ("'" + "(.*) example" + "'"))
  {
    assert Str(111) == "111" by {
      assert NatDigits(11) == "11" by { assert NatDigits(1) == "1"; }
    }
    ReprVerbatim("(.*) example");
  }
}

=== FILE: wrappers.dfy ===
/** Optional values and results with an error, used for Python's `None` and raised exceptions. */
module Wrappers {

  datatype Option<+T> = None | Some(value: T)

  datatype Result<+T, +E> = Success(value: T) | Failure(error: E)
}
